=== FILE: README.md ===
# Chess puzzle bot — Dafny model

A model of the logic the Telegram chess-puzzle bot (`chessbot.py`) owns
itself. The chess rules, image rendering, chat transport and table loading
belong to libraries and are not part of this model. What remains:

- the MarkdownV2 escaper `escape_md_v2`. Each reserved character gets a backslash in front of it;
- the `/random` argument parser `parse_args`. `"1"`, `"2"` or `"3"` become the theme tag `mateIn<n>`;
- the caption that `send_puzzle` composes. It has a side-to-move label read from the FEN's second field, a
  mate depth read from the themes string, the moves under a spoiler, and the escaped puzzle URL;
- the per-chat delivery history `chat_puzzles`. Each delivery appends to it, and `/today` reads its last entry;
- the catalog of puzzle rows with their `posted` flags. `/random` filters it by theme and samples from it. The daily job picks the first
  unposted row and marks it posted.

The handlers are pure functions from a `BotState` (history map plus catalog)
to a `Step`: the next state and an `Outcome`. An outcome is a delivered
photo with its caption, a text reply, nothing, or the exception the handler
ends in. The random sample of `/random` is a `pick` parameter. Python's
substring test, `str.split()` and `str.join` are modelled in `text.dfy`.

Modules: `Wrappers` (Option/Result), `Text`, `MarkdownV2`, `Args`,
`Catalog`, `Registry`, `Captions`, `Bot`.

Behaviour of the code worth knowing:
- the label says which side moves *after* the setup move. So a FEN with `w` in its second field is
  captioned "Black moves first".
- the solution under the spoiler lists every move in coordinate notation, joined by `", "`.
  The setup move is included and the moves are not escaped. Only the URL passes through the escaper.
- the daily job has no list of chats. See the finding below.
- `send_puzzle` appends to the chat's history before the caption is composed. A caption that
  raises (a FEN with no second field) still leaves the history changed.

## Model

| member | source | states |
|---|---|---|
| Text.ContainsIffWindow | chessbot.py:86-91 | the substring test used for themes holds exactly when some window of the string spells the tag |
| Text.Fields | chessbot.py:81 | `str.split()` returns only non-empty, whitespace-free words |
| Text.WordLengthBeforeSpace | chessbot.py:81 | a whitespace character ends the word in front of it, whatever text follows |
| Text.FieldsAtSpace | chessbot.py:81 | splitting at any whitespace character, in a run or alone, gives the words on its left followed by the words on its right; with the empty string splitting to nothing and a word splitting to itself, this fixes the result as the maximal whitespace-free runs in order, with none dropped |
| Text.FieldsOfJoin | chessbot.py:81 | splitting words joined by single spaces gives back exactly those words, in order |
| MarkdownV2.Escape | chessbot.py:35-37 | the escaped text is as long as the input plus one per reserved character; it never starts with a reserved character |
| MarkdownV2.EscapeAt | chessbot.py:35-37 | every input character appears, in order, at its landing position; a reserved one is preceded there by a backslash and nothing else is written |
| MarkdownV2.UnescapeEscape | chessbot.py:35-37 | removing the inserted backslashes gives back the input, backslashes in the input included |
| MarkdownV2.EscapeLeavesNoBareReserved | chessbot.py:35-37 | every reserved character in the output directly follows a backslash |
| MarkdownV2.EscapePlain | chessbot.py:35-37 | text without reserved characters is returned unchanged |
| MarkdownV2.EscapeAppend | chessbot.py:37 | escaping works per character, so it distributes over concatenation |
| Args.ParseArgs | chessbot.py:124-132 | the tag is present exactly when the first argument is the digit 1, 2 or 3, and it is then the mate tag for that digit |
| Args.ParseArgsIgnoresRest | chessbot.py:124-132 | arguments after the first never change the result |
| Args.ParseArgsDigit | chessbot.py:128-130 | each of the three digits, whatever follows it, yields its own tag |
| Catalog.WithTheme | chessbot.py:138 | the filtered rows are exactly the catalog rows whose themes contain the tag |
| Catalog.FirstUnposted | chessbot.py:118-120 | the selected row is unposted and every earlier row is posted; none is selected exactly when all rows are posted |
| Catalog.FindById | chessbot.py:111 | the found row has the id and no earlier row has it; none is found exactly when no row has the id |
| Catalog.MarkPosted | chessbot.py:122 | the chosen row becomes posted with its other fields kept; every other row is unchanged |
| Catalog.MarkPostedCount | chessbot.py:122 | posting an unposted row lowers the unposted count by exactly one |
| Catalog.CountUnpostedPositive | chessbot.py:118-119 | the unposted count is positive exactly when there is an unposted row to select |
| Catalog.MarkPostedKeepsIds | chessbot.py:122 | posting a row leaves the set of known puzzle ids unchanged |
| Registry.RecordDelivery | chessbot.py:72-74 | a chat without an entry starts from the empty history; its history becomes the old one plus the id; other chats keep theirs |
| Registry.LastDelivered | chessbot.py:109-110 | there is a last id exactly when the chat has a non-empty history, and it is that history's last element |
| Registry.LastAfterRecord | chessbot.py:72-74 | after recording an id, the chat's last id is that id and every other chat's last id is unchanged |
| Captions.SideLabel | chessbot.py:81-82 | fails exactly when the FEN has fewer than two fields; otherwise the label is White exactly when the second field is `b` |
| Captions.SideLabelIsOpponent | chessbot.py:81-82 | for a FEN naming a side to move, the label names the other side |
| Captions.MateDepth | chessbot.py:84-91 | the depth is the first of 1, 2, 3 whose tag the themes contain, and 0 exactly when none is contained |
| Captions.MateDepthOfTag | chessbot.py:84-91 | the tag `/random n` filters by is classified as depth n |
| Captions.MateDepthOfTagged | chessbot.py:84-91 | themes containing the tag for n get a depth from 1 to n |
| Captions.Caption | chessbot.py:93-100 | fails exactly when the FEN has no second field; otherwise it is exactly the label and depth headline, the spoiler line of all moves, `*Puzzle URL:*`, the escaped URL and a newline, with nothing in between |
| Captions.SolutionLineOfMoves | chessbot.py:94-95 | the spoiler lists every move, the setup move included, separated by ", " |
| Captions.EscapeUrl | chessbot.py:100 | in the puzzle URL only the dot of the site address is escaped; a plain id is copied |
| Captions.CaptionScenario | chessbot.py:81-98 | a White-to-move FEN with tag mateIn1 is captioned "Black moves first, mate in 1" |
| Bot.SendPuzzle | chessbot.py:67-104 | the chat's history gains the id and no other chat's changes; it delivers exactly when the FEN has a second field; a target with no chat raises and changes nothing |
| Bot.TodayPuzzle | chessbot.py:107-114 | without history it replies and changes nothing; it raises, changing nothing, exactly when the last id is in no row; otherwise it appends the id to the chat's history once more and sends the first catalog row with that id, delivering it with its caption, or raising the caption error when its FEN has no second field |
| Bot.Candidates | chessbot.py:137-143 | with a tag, the candidates are exactly the rows containing it; without one, the whole catalog |
| Bot.RandomPuzzle | chessbot.py:134-146 | with candidates, some candidate's id is appended to the chat's history and that candidate is delivered with its caption exactly when the caption can be composed (else the caption error is raised); with no candidates nothing changes and the user gets the "no puzzles" reply (tag) or an exception (empty catalog); other chats are untouched |
| Bot.RandomDelivers | chessbot.py:137-146 | with a well-formed catalog and at least one candidate, `/random` always delivers |
| Bot.RandomCanChooseAny | chessbot.py:145-146 | every candidate is the one sent for some sample |
| Bot.RandomTaggedDepth | chessbot.py:135-146 | a puzzle delivered by `/random n` has a caption depth from 1 to n |
| Bot.NoPuzzlesFoundNamesDepth | chessbot.py:140 | the empty-result reply quotes the requested depth digit |
| Bot.DailyPuzzleAsWritten | chessbot.py:116-122 | as scheduled, the job raises before any change whenever an unposted row exists, and does nothing when all rows are posted |
| Bot.DailyAsWrittenRepeats | chessbot.py:121-122 | as scheduled, a second run selects the same row again and the unposted count never drops |
| Bot.DailyAsWrittenExample | chessbot.py:121 | a one-puzzle catalog: two runs both raise, the puzzle stays unposted, no history is recorded |
| Bot.DailyPuzzle | chessbot.py:116-122 | with no unposted row nothing happens; otherwise the first unposted row is recorded and delivered with its caption, and only that row is marked posted; when its caption cannot be composed the caption error is raised and nothing is posted |
| Bot.DailyDecreasesUnposted | chessbot.py:116-122 | with a well-formed catalog each run lowers the unposted count by one |
| Bot.DailyTwiceDistinct | chessbot.py:116-122 | two successive runs deliver two different rows, the second later in catalog order |
| Bot.SendPuzzleKeepsKnown | chessbot.py:72-74 | sending a catalog row keeps every recorded id an id of some catalog row |
| Bot.TodayKeepsKnown | chessbot.py:107-112 | `/today` keeps every recorded id known to the catalog |
| Bot.RandomKeepsKnown | chessbot.py:134-146 | `/random` keeps every recorded id known to the catalog |
| Bot.DailyKeepsKnown | chessbot.py:116-122 | the daily job keeps every recorded id known to the catalog |
| Bot.TodayNeverRaises | chessbot.py:107-114 | with known ids and well-formed FENs, `/today` delivers exactly when the chat has a history, and otherwise replies that there is no puzzle yet |
| Bot.TodayAfterRandom | chessbot.py:107-112 | after `/random` delivers a puzzle, `/today` in that chat delivers a puzzle with the same id |

## Left out

- Chat transport: `send_photo`, `reply_text`, `Updater`, the command handlers and the `job_queue` schedule (chessbot.py:103, 162-181). These are external I/O and a timer thread, so handler results are values.
- Rendering: `get_first_move` and `generate_png` (chessbot.py:39-64) use the chess rules library, the SVG renderer and the PNG converter. Their failures are not modelled, and neither is the SVG/PNG file-name quirk at chessbot.py:59-63.
- Turn fields other than `w` and `b`: `SideLabel` reads any such field as "Black", as chessbot.py:82 does. In the running program this cannot happen, because chessbot.py:46 first builds the board, and the chess library rejects such a FEN. That rejection is part of the rendering, which is not modelled.
- Persistence: the token file, the JSON save and load of `used_puzzles.json`, and `os.remove` are file I/O. The history is one in-memory map, and the int-versus-string chat key that a JSON round trip introduces is not modelled.
- Table loading (chessbot.py:31-33) is a library call. The catalog is a sequence of rows whose `posted` flags start false. Missing `Themes` values are not modelled.
- Randomness: `.sample(1)` is the `pick` parameter.
- `str.contains`: modelled as a plain substring test. Pandas reads its pattern as a regular expression, but the three mate tags contain no metacharacters.
- Help text and logging setup (chessbot.py:149-163) are static strings and configuration.

## Findings

| source | as written | input that shows it | evidently intended | confidence | as-written member | corrected member |
|---|---|---|---|---|---|---|
| chessbot.py:121 | the daily job passes `context.job.context` as the update. That is the dispatcher given at chessbot.py:177. `send_puzzle` then reads `update.effective_chat.id`, which raises before anything is recorded or posted. | any catalog with an unposted row: each 9:00 run raises, and the next run selects the same first row again | send the first unposted puzzle to a chat, then mark that row posted, so successive runs send different puzzles | high that the dispatcher has no chat; not executed | Bot.DailyAsWrittenRepeats | Bot.DailyTwiceDistinct |

=== FILE: args.dfy ===
/** The `/random` command's argument: a mate depth of 1, 2 or 3, turned into a theme tag. */
module Args {
  import opened Wrappers

  /** The decimal digit of a small number. */
  function Digit(n: nat): char
    requires n <= 9
  {
    ('0' as int + n) as char
  }

  /** The theme tag the puzzle table uses for a mate in `n`. */
  function MateTag(n: nat): string
    requires 1 <= n <= 3
  {
    "mateIn" + [Digit(n)]
  }

  /** `parse_args`: the tag for the first argument when it is "1", "2" or "3", otherwise None. */
  function ParseArgs(args: seq<string>): (r: Option<string>)
    ensures r.Some? <==> |args| > 0 && exists n :: 1 <= n <= 3 && args[0] == [Digit(n)]
    ensures r.Some? ==> exists n :: 1 <= n <= 3 && args[0] == [Digit(n)] && r.value == MateTag(n)
  {
    if |args| == 0 then None
    else if args[0] in ["1", "2", "3"] then
      assert args[0] == [Digit(1)] || args[0] == [Digit(2)] || args[0] == [Digit(3)];
      Some("mateIn" + args[0])
    else None
  }

  /** Only the first argument matters. */
  lemma ParseArgsIgnoresRest(args: seq<string>, more: seq<string>)
    requires |args| > 0
    ensures ParseArgs(args + more) == ParseArgs(args[..1])
  {
  }

  /** The digit argument of each depth is accepted and yields that depth's tag. */
  lemma ParseArgsDigit(n: nat, rest: seq<string>)
    requires 1 <= n <= 3
    ensures ParseArgs([[Digit(n)]] + rest) == Some(MateTag(n))
  {
  }
}

=== FILE: bot.dfy ===
/**
 * The bot's command handlers over its two pieces of process state: the
 * per-chat delivery history and the catalog with its posted flags. Each
 * handler returns the next state and what the chat sees.
 */
module Bot {
  import opened Wrappers
  import opened Text
  import opened Args
  import opened Catalog
  import opened Registry
  import opened Captions

  datatype BotState = BotState(registry: Registry, catalog: seq<Puzzle>)

  /** The exceptions a handler can end in; none of them is caught by the bot. */
  datatype Failure =
    | CaptionFailed(reason: CaptionError)   // composing the caption raised
    | UnknownPuzzleId    // the chat's last puzzle id matches no catalog row
    | EmptySample        // sampling one row of an empty catalog
    | NoEffectiveChat    // the object passed as the update has no chat

  /** What a handler leaves visible: a photo with its caption, a text reply, nothing, or an exception. */
  datatype Outcome =
    | Delivered(chat: ChatId, puzzle: Puzzle, caption: string)
    | Replied(chat: ChatId, text: string)
    | Idle
    | Raised(failure: Failure)

  /** What `send_puzzle` is handed as its update: a chat's command update, or the dispatcher the daily job carries. */
  datatype Target = ChatOf(id: ChatId) | Dispatcher

  datatype Step = Step(state: BotState, outcome: Outcome)

  /** Every FEN in the catalog has a second field. */
  predicate WellFormedCatalog(catalog: seq<Puzzle>) {
    forall i :: 0 <= i < |catalog| ==> |Fields(catalog[i].fen)| >= 2
  }

  /** Every puzzle id in every chat's history names a catalog row. */
  ghost predicate HistoriesKnown(s: BotState) {
    forall c, k :: c in s.registry && 0 <= k < |s.registry[c]| ==> Known(s.catalog, s.registry[c][k])
  }

  /** Only `chat`'s history differs between the two registries. */
  ghost predicate OthersUnchanged(before: Registry, after: Registry, chat: ChatId) {
    forall c :: c != chat ==> History(after, c) == History(before, c)
  }

  /**
   * `send_puzzle`: read the chat id, append the puzzle id to that chat's
   * history, then compose the caption. The history change stays even when
   * the caption raises; a target without a chat raises before anything changes.
   */
  function SendPuzzle(s: BotState, target: Target, p: Puzzle): (r: Step)
    ensures r.state.catalog == s.catalog
    ensures target.Dispatcher? ==> r == Step(s, Raised(NoEffectiveChat))
    ensures target.ChatOf? ==>
      && History(r.state.registry, target.id) == History(s.registry, target.id) + [p.id]
      && OthersUnchanged(s.registry, r.state.registry, target.id)
      && (r.outcome.Delivered? <==> |Fields(p.fen)| >= 2)
      && (r.outcome.Delivered? ==> r.outcome.chat == target.id && r.outcome.puzzle == p && r.outcome.caption == Caption(p).value)
      && (!r.outcome.Delivered? ==> r.outcome == Raised(CaptionFailed(MissingTurnField)))
  {
    match target
    case Dispatcher => Step(s, Raised(NoEffectiveChat))
    case ChatOf(chat) =>
      var next := s.(registry := RecordDelivery(s.registry, chat, p.id));
      match Caption(p)
      case Ok(text) => Step(next, Delivered(chat, p, text))
      case Err(e) => Step(next, Raised(CaptionFailed(e)))
  }

  const NoPuzzleYet: string :=
    "There's no puzzle for today yet. Please wait for the daily puzzle or use the /random command."

  /**
   * `/today`: send again the puzzle last sent to this chat, looked up by id in
   * the catalog; without history, say so.
   */
  function TodayPuzzle(s: BotState, chat: ChatId): (r: Step)
    ensures r.state.catalog == s.catalog
    ensures LastDelivered(s.registry, chat).None? ==> r == Step(s, Replied(chat, NoPuzzleYet))
    ensures LastDelivered(r.state.registry, chat) == LastDelivered(s.registry, chat)
    ensures OthersUnchanged(s.registry, r.state.registry, chat)
    ensures r.outcome.Delivered? ==>
      && r.outcome.chat == chat
      && r.outcome.puzzle in s.catalog
      && LastDelivered(s.registry, chat) == Some(r.outcome.puzzle.id)
    ensures r.outcome == Raised(UnknownPuzzleId) <==>
      LastDelivered(s.registry, chat).Some? && !Known(s.catalog, LastDelivered(s.registry, chat).value)
    ensures r.outcome == Raised(UnknownPuzzleId) ==> r.state == s
    ensures LastDelivered(s.registry, chat).Some? && Known(s.catalog, LastDelivered(s.registry, chat).value) ==>
      var row := s.catalog[FindById(s.catalog, LastDelivered(s.registry, chat).value).value];
      r.outcome == (if |Fields(row.fen)| >= 2 then Delivered(chat, row, Caption(row).value)
                    else Raised(CaptionFailed(MissingTurnField)))
    ensures LastDelivered(s.registry, chat).Some? && Known(s.catalog, LastDelivered(s.registry, chat).value) ==>
      History(r.state.registry, chat) == History(s.registry, chat) + [LastDelivered(s.registry, chat).value]
  {
    match LastDelivered(s.registry, chat)
    case None => Step(s, Replied(chat, NoPuzzleYet))
    case Some(id) =>
      match FindById(s.catalog, id)
      case None => Step(s, Raised(UnknownPuzzleId))
      case Some(i) => SendPuzzle(s, ChatOf(chat), s.catalog[i])
  }

  /** The rows `/random` samples from: those whose themes contain the tag, or the whole catalog without one. */
  function Candidates(catalog: seq<Puzzle>, tag: Option<string>): (r: seq<Puzzle>)
    ensures tag.None? ==> r == catalog
    ensures tag.Some? ==> forall p :: p in r <==> p in catalog && Contains(p.themes, tag.value)
  {
    match tag
    case None => catalog
    case Some(t) => WithTheme(catalog, t)
  }

  /** The reply when no row carries the requested tag; it quotes the tag's last character, the depth digit. */
  function NoPuzzlesFound(tag: string): string
    requires |tag| > 0
  {
    "No puzzles found for mate in " + [tag[|tag| - 1]] + "."
  }

  /**
   * `/random [n]`: sample one candidate and send it. The sample is the
   * candidate at `pick` (modulo their number), standing for the random choice.
   */
  function RandomPuzzle(s: BotState, chat: ChatId, args: seq<string>, pick: nat): (r: Step)
    ensures r.state.catalog == s.catalog
    ensures OthersUnchanged(s.registry, r.state.registry, chat)
    ensures r.outcome.Delivered? ==> r.outcome.chat == chat && r.outcome.puzzle in Candidates(s.catalog, ParseArgs(args))
    ensures |Candidates(s.catalog, ParseArgs(args))| == 0 ==> r.state == s && !r.outcome.Delivered?
    ensures ParseArgs(args).Some? && |Candidates(s.catalog, ParseArgs(args))| == 0 ==>
      r.outcome == Replied(chat, NoPuzzlesFound(ParseArgs(args).value))
    ensures ParseArgs(args).None? && |s.catalog| == 0 ==> r.outcome == Raised(EmptySample)
    ensures |Candidates(s.catalog, ParseArgs(args))| > 0 ==>
      exists p :: p in Candidates(s.catalog, ParseArgs(args)) && SentOnly(s, r, chat, p)
  {
    var tag := ParseArgs(args);
    var pool := Candidates(s.catalog, tag);
    if |pool| == 0 then
      if tag.Some? then Step(s, Replied(chat, NoPuzzlesFound(tag.value))) else Step(s, Raised(EmptySample))
    else
      var p := pool[pick % |pool|];
      assert SentOnly(s, SendPuzzle(s, ChatOf(chat), p), chat, p);
      SendPuzzle(s, ChatOf(chat), p)
  }

  /**
   * Step `r` sent `p` to `chat`: its id was appended to the chat's history,
   * and the chat got `p` exactly when its caption could be composed.
   */
  ghost predicate SentOnly(s: BotState, r: Step, chat: ChatId, p: Puzzle) {
    && History(r.state.registry, chat) == History(s.registry, chat) + [p.id]
    && (r.outcome.Delivered? <==> |Fields(p.fen)| >= 2)
    && (r.outcome.Delivered? ==> r.outcome == Delivered(chat, p, Caption(p).value))
    && (!r.outcome.Delivered? ==> r.outcome == Raised(CaptionFailed(MissingTurnField)))
  }

  /** With some candidate and a well-formed catalog, `/random` always delivers. */
  lemma RandomDelivers(s: BotState, chat: ChatId, args: seq<string>, pick: nat)
    requires WellFormedCatalog(s.catalog) && |Candidates(s.catalog, ParseArgs(args))| > 0
    ensures RandomPuzzle(s, chat, args, pick).outcome.Delivered?
  {
  }

  /**
   * `daily_puzzle` sending to `target`: the first unposted row is sent, and
   * marked posted only if sending raised nothing.
   */
  function DailyTo(s: BotState, target: Target): Step {
    match FirstUnposted(s.catalog)
    case None => Step(s, Idle)
    case Some(i) =>
      var sent := SendPuzzle(s, target, s.catalog[i]);
      if sent.outcome.Raised? then sent
      else Step(sent.state.(catalog := MarkPosted(sent.state.catalog, i)), sent.outcome)
  }

  /** The daily job as scheduled: it hands the dispatcher to `send_puzzle`, which has no chat to read. */
  function DailyPuzzleAsWritten(s: BotState): (r: Step)
    ensures r.state == s
    ensures FirstUnposted(s.catalog).Some? ==> r.outcome == Raised(NoEffectiveChat)
    ensures FirstUnposted(s.catalog).None? ==> r.outcome == Idle
  {
    DailyTo(s, Dispatcher)
  }

  /** The daily job sending to `chat`: first unposted row delivered, that row alone marked posted. */
  function DailyPuzzle(s: BotState, chat: ChatId): (r: Step)
    ensures FirstUnposted(s.catalog).None? ==> r == Step(s, Idle)
    ensures OthersUnchanged(s.registry, r.state.registry, chat)
    ensures FirstUnposted(s.catalog).Some? ==>
      var i := FirstUnposted(s.catalog).value;
      && History(r.state.registry, chat) == History(s.registry, chat) + [s.catalog[i].id]
      && (r.outcome.Delivered? <==> |Fields(s.catalog[i].fen)| >= 2)
      && (r.outcome.Delivered? ==>
            && r.outcome == Delivered(chat, s.catalog[i], Caption(s.catalog[i]).value)
            && r.state.catalog == MarkPosted(s.catalog, i))
      && (!r.outcome.Delivered? ==>
            && r.outcome == Raised(CaptionFailed(MissingTurnField))
            && r.state.catalog == s.catalog)
  {
    DailyTo(s, ChatOf(chat))
  }

  /** The as-written job never advances: it raises, posts nothing, and the next run picks the same row. */
  lemma DailyAsWrittenRepeats(s: BotState)
    requires FirstUnposted(s.catalog).Some?
    ensures DailyPuzzleAsWritten(s) == Step(s, Raised(NoEffectiveChat))
    ensures DailyPuzzleAsWritten(DailyPuzzleAsWritten(s).state) == Step(s, Raised(NoEffectiveChat))
    ensures CountUnposted(DailyPuzzleAsWritten(s).state.catalog) == CountUnposted(s.catalog)
  {
  }

  /** A one-puzzle catalog: the scheduled job runs twice and the puzzle is never delivered nor posted. */
  lemma DailyAsWrittenExample()
    ensures
      var s := BotState(map[], [Puzzle("P1", "8/8 w", "e2e4 e7e5", "mateIn1", false)]);
      var once := DailyPuzzleAsWritten(s);
      var twice := DailyPuzzleAsWritten(once.state);
      && once.outcome == Raised(NoEffectiveChat)
      && twice.outcome == Raised(NoEffectiveChat)
      && !twice.state.catalog[0].posted
      && twice.state.registry == map[]
  {
  }

  /** With a well-formed catalog, one daily run removes exactly one row from the unposted count. */
  lemma DailyDecreasesUnposted(s: BotState, chat: ChatId)
    requires WellFormedCatalog(s.catalog) && CountUnposted(s.catalog) > 0
    ensures CountUnposted(DailyPuzzle(s, chat).state.catalog) == CountUnposted(s.catalog) - 1
  {
    CountUnpostedPositive(s.catalog);
    var i := FirstUnposted(s.catalog).value;
    MarkPostedCount(s.catalog, i);
  }

  /** Two daily runs in a row deliver two different rows, the second one later in catalog order. */
  lemma DailyTwiceDistinct(s: BotState, chat: ChatId)
    requires WellFormedCatalog(s.catalog) && CountUnposted(s.catalog) >= 2
    ensures
      var first := DailyPuzzle(s, chat);
      var second := DailyPuzzle(first.state, chat);
      && first.outcome.Delivered? && second.outcome.Delivered?
      && FirstUnposted(first.state.catalog).Some?
      && FirstUnposted(first.state.catalog).value > FirstUnposted(s.catalog).value
  {
    DailyDecreasesUnposted(s, chat);
    var first := DailyPuzzle(s, chat);
    CountUnpostedPositive(first.state.catalog);
    assert WellFormedCatalog(first.state.catalog);
    var i := FirstUnposted(s.catalog).value;
    var j := FirstUnposted(first.state.catalog).value;
    assert first.state.catalog[i].posted;
  }

  /** Sending a catalog row keeps every history entry a known id. */
  lemma SendPuzzleKeepsKnown(s: BotState, target: Target, p: Puzzle)
    requires HistoriesKnown(s) && p in s.catalog
    ensures HistoriesKnown(SendPuzzle(s, target, p).state)
  {
  }

  /** `/today` records only ids already in a history, so every history entry stays a known id. */
  lemma TodayKeepsKnown(s: BotState, chat: ChatId)
    requires HistoriesKnown(s)
    ensures HistoriesKnown(TodayPuzzle(s, chat).state)
  {
  }

  /** `/random` records a catalog row's id, so every history entry stays a known id. */
  lemma RandomKeepsKnown(s: BotState, chat: ChatId, args: seq<string>, pick: nat)
    requires HistoriesKnown(s)
    ensures HistoriesKnown(RandomPuzzle(s, chat, args, pick).state)
  {
  }

  /** The daily job records a catalog row's id and posting changes no id, so every history entry stays known. */
  lemma DailyKeepsKnown(s: BotState, chat: ChatId)
    requires HistoriesKnown(s)
    ensures HistoriesKnown(DailyPuzzle(s, chat).state)
  {
  }

  /** With known histories and a well-formed catalog, `/today` never raises: it delivers or says there is none. */
  lemma TodayNeverRaises(s: BotState, chat: ChatId)
    requires HistoriesKnown(s) && WellFormedCatalog(s.catalog)
    ensures TodayPuzzle(s, chat).outcome.Delivered? <==> LastDelivered(s.registry, chat).Some?
    ensures !TodayPuzzle(s, chat).outcome.Delivered? ==> TodayPuzzle(s, chat).outcome == Replied(chat, NoPuzzleYet)
  {
  }

  /** After `/random` delivers a puzzle, `/today` in the same chat delivers a puzzle with the same id. */
  lemma TodayAfterRandom(s: BotState, chat: ChatId, args: seq<string>, pick: nat)
    requires WellFormedCatalog(s.catalog)
    requires RandomPuzzle(s, chat, args, pick).outcome.Delivered?
    ensures
      var r := RandomPuzzle(s, chat, args, pick);
      && TodayPuzzle(r.state, chat).outcome.Delivered?
      && TodayPuzzle(r.state, chat).outcome.puzzle.id == r.outcome.puzzle.id
  {
  }

  /** Every candidate can be the one sampled: the pick that names it delivers it or records it. */
  lemma RandomCanChooseAny(s: BotState, chat: ChatId, args: seq<string>, k: nat)
    requires k < |Candidates(s.catalog, ParseArgs(args))|
    ensures
      var r := RandomPuzzle(s, chat, args, k);
      && LastDelivered(r.state.registry, chat) == Some(Candidates(s.catalog, ParseArgs(args))[k].id)
      && (r.outcome.Delivered? ==> r.outcome.puzzle == Candidates(s.catalog, ParseArgs(args))[k])
  {
    var pool := Candidates(s.catalog, ParseArgs(args));
    assert k % |pool| == k;
  }

  /** A puzzle delivered by `/random n` is captioned with a mate depth between 1 and n. */
  lemma RandomTaggedDepth(s: BotState, chat: ChatId, n: nat, rest: seq<string>, pick: nat)
    requires 1 <= n <= 3
    requires RandomPuzzle(s, chat, [[Digit(n)]] + rest, pick).outcome.Delivered?
    ensures 1 <= MateDepth(RandomPuzzle(s, chat, [[Digit(n)]] + rest, pick).outcome.puzzle.themes) <= n
  {
  }

  /** The empty-result reply names the depth that was asked for. */
  lemma NoPuzzlesFoundNamesDepth(n: nat)
    requires 1 <= n <= 3
    ensures NoPuzzlesFound(MateTag(n)) == "No puzzles found for mate in " + [Digit(n)] + "."
  {
  }
}

=== FILE: caption.dfy ===
/**
 * The photo caption `send_puzzle` composes: who moves first, the mate depth
 * read from the themes, the solution under a spoiler and the escaped puzzle URL.
 */
module Captions {
  import opened Wrappers
  import opened Text
  import opened MarkdownV2
  import opened Args
  import opened Catalog

  datatype Color = White | Black

  function Opponent(c: Color): Color {
    match c
    case White => Black
    case Black => White
  }

  function ColorName(c: Color): string {
    match c
    case White => "White"
    case Black => "Black"
  }

  /** The side to move a FEN states in its second field, when that field is "w" or "b". */
  function FenSideToMove(fen: string): Option<Color> {
    var f := Fields(fen);
    if |f| >= 2 && f[1] == "w" then Some(White)
    else if |f| >= 2 && f[1] == "b" then Some(Black)
    else None
  }

  /** Indexing the second field of a FEN that has fewer than two (`fen_parts[1]` raises IndexError). */
  datatype CaptionError = MissingTurnField

  /**
   * The side the caption says moves first. It is the side NOT to move in the
   * FEN, since the setup move is played before the position is shown; any
   * second field other than "b" is read as White to move.
   */
  function SideLabel(fen: string): (r: Result<Color, CaptionError>)
    ensures r.Err? <==> |Fields(fen)| < 2
    ensures r.Ok? ==> (r.value == White <==> Fields(fen)[1] == "b")
  {
    var f := Fields(fen);
    if |f| < 2 then Err(MissingTurnField)
    else if f[1] == "b" then Ok(White)
    else Ok(Black)
  }

  /** For a FEN naming a side to move, the label is the opposite side. */
  lemma SideLabelIsOpponent(fen: string, c: Color)
    requires FenSideToMove(fen) == Some(c)
    ensures SideLabel(fen) == Ok(Opponent(c))
  {
  }

  /**
   * The mate depth: the first of 1, 2, 3 whose tag the themes string contains,
   * checked in ascending order, or 0 when none is present.
   */
  function MateDepth(themes: string): (d: nat)
    ensures d <= 3
    ensures d == 0 <==> forall n :: 1 <= n <= 3 ==> !Contains(themes, MateTag(n))
    ensures d > 0 ==> Contains(themes, MateTag(d)) && forall n :: 1 <= n < d ==> !Contains(themes, MateTag(n))
  {
    assert MateTag(1) == "mateIn1" && MateTag(2) == "mateIn2" && MateTag(3) == "mateIn3";
    if Contains(themes, "mateIn1") then 1
    else if Contains(themes, "mateIn2") then 2
    else if Contains(themes, "mateIn3") then 3
    else 0
  }

  /** Each depth's own tag is classified as that depth: parsing `/random n` and classifying agree. */
  lemma {:induction false} MateDepthOfTag(n: nat)
    requires 1 <= n <= 3
    ensures MateDepth(MateTag(n)) == n
  {
    forall k | 1 <= k <= 3
      ensures Contains(MateTag(n), MateTag(k)) <==> k == n
    {
      SameLengthContains(MateTag(n), MateTag(k));
      assert MateTag(n)[6] == Digit(n) && MateTag(k)[6] == Digit(k);
    }
  }

  /** A puzzle carrying the tag for `n` is captioned with a depth between 1 and `n`. */
  lemma MateDepthOfTagged(themes: string, n: nat)
    requires 1 <= n <= 3 && Contains(themes, MateTag(n))
    ensures 1 <= MateDepth(themes) <= n
  {
  }

  const PuzzleUrlBase: string := "https://lichess.org/training/"

  /** The puzzle's page on the puzzle site. */
  function PuzzleUrl(id: PuzzleId): string {
    PuzzleUrlBase + id
  }

  /** The caption's first line, in bold. */
  function Headline(side: Color, depth: nat): string
    requires depth <= 3
  {
    "*" + ColorName(side) + " moves first, mate in " + [Digit(depth)] + "*\n"
  }

  /** The caption's second line: every move of the puzzle, comma separated, under a spoiler. */
  function SolutionLine(moves: string): string {
    "*Solution:* || " + Join(Fields(moves), ", ") + " ||\n"
  }

  /**
   * The caption of `send_puzzle`. Only the URL passes through the escaper; it
   * fails exactly when the FEN has no second field.
   */
  function Caption(p: Puzzle): (r: Result<string, CaptionError>)
    ensures r.Err? <==> |Fields(p.fen)| < 2
    ensures r.Ok? ==> IsPrefix(Headline(SideLabel(p.fen).value, MateDepth(p.themes)), r.value)
    ensures r.Ok? ==>
      IsPrefix(Headline(SideLabel(p.fen).value, MateDepth(p.themes)) + SolutionLine(p.moves) + "*Puzzle URL:*", r.value)
    ensures r.Ok? ==> IsSuffix(Escape(PuzzleUrl(p.id)) + "\n", r.value)
    ensures r.Ok? ==>
      |r.value| == |Headline(SideLabel(p.fen).value, MateDepth(p.themes)) + SolutionLine(p.moves) + "*Puzzle URL:*"|
                   + |Escape(PuzzleUrl(p.id))| + 1
  {
    var side :- SideLabel(p.fen);
    var head := Headline(side, MateDepth(p.themes));
    var body := head + SolutionLine(p.moves) + "*Puzzle URL:*";
    var tail := Escape(PuzzleUrl(p.id)) + "\n";
    var text := body + tail;
    assert text[..|head|] == head;
    assert text[..|body|] == body;
    assert text[|text| - |tail|..] == tail;
    Ok(text)
  }

  /** The pieces of the site's address around its one reserved character, the dot. */
  lemma PlainUrlParts(id: PuzzleId)
    requires Plain(id)
    ensures Plain("https://lichess") && Plain("org/training/" + id)
  {
  }

  /** Only the dot of the site's address is escaped; an identifier free of reserved characters is copied. */
  lemma EscapeUrl(id: PuzzleId)
    requires Plain(id)
    ensures Escape(PuzzleUrl(id)) == "https://lichess\\.org/training/" + id
  {
    PlainUrlParts(id);
    assert PuzzleUrl(id) == "https://lichess" + ['.'] + ("org/training/" + id);
    EscapeAroundReserved("https://lichess", '.', "org/training/" + id);
  }

  /**
   * The moves are listed in full, the setup move first, separated by ", ":
   * splitting the moves field gives back the moves it was written from.
   */
  lemma SolutionLineOfMoves(ms: seq<string>)
    requires forall k :: 0 <= k < |ms| ==> IsWord(ms[k])
    ensures SolutionLine(Join(ms, " ")) == "*Solution:* || " + Join(ms, ", ") + " ||\n"
  {
    FieldsOfJoin(ms);
  }

  /**
   * A position with White to move and the tag "mateIn1": once the setup move is
   * played it is Black who moves, and the caption opens with exactly that.
   */
  lemma CaptionScenario(p: Puzzle)
    requires FenSideToMove(p.fen) == Some(White) && Contains(p.themes, "mateIn1")
    ensures Caption(p).Ok?
    ensures IsPrefix("*Black moves first, mate in 1*\n", Caption(p).value)
  {
    SideLabelIsOpponent(p.fen, White);
    assert MateTag(1) == "mateIn1";
    assert MateDepth(p.themes) == 1;
    var text := Caption(p).value;
    assert IsPrefix(Headline(Black, 1), text);
    HeadlineBlackMateIn1();
  }

  /** The headline for Black to move and mate in 1, spelled out. */
  lemma HeadlineBlackMateIn1()
    ensures Headline(Black, 1) == "*Black moves first, mate in 1*\n"
  {
  }
}

=== FILE: catalog.dfy ===
/**
 * The puzzle catalog: the rows of the puzzle table in file order, each with
 * the `posted` column the bot adds (false for every row at start-up).
 */
module Catalog {
  import opened Wrappers
  import opened Text

  /** A puzzle's `PuzzleId`. */
  type PuzzleId = string

  /** One catalog row: identifier, FEN, moves in coordinate notation, space-separated themes, posted flag. */
  datatype Puzzle = Puzzle(id: PuzzleId, fen: string, moves: string, themes: string, posted: bool)

  /** Some row of the catalog carries identifier `id`. */
  ghost predicate Known(catalog: seq<Puzzle>, id: PuzzleId) {
    exists i :: 0 <= i < |catalog| && catalog[i].id == id
  }

  /** The rows whose themes string contains `tag`, in catalog order (the `str.contains` filter). */
  function WithTheme(catalog: seq<Puzzle>, tag: string): (r: seq<Puzzle>)
    ensures |r| <= |catalog|
    ensures forall p :: p in r <==> p in catalog && Contains(p.themes, tag)
  {
    if |catalog| == 0 then []
    else if Contains(catalog[0].themes, tag) then [catalog[0]] + WithTheme(catalog[1..], tag)
    else WithTheme(catalog[1..], tag)
  }

  /** Index of the first row not yet posted (`.iloc[0]` of the unposted rows), or None when all are posted. */
  function FirstUnposted(catalog: seq<Puzzle>): (r: Option<nat>)
    ensures r.None? <==> forall i :: 0 <= i < |catalog| ==> catalog[i].posted
    ensures r.Some? ==>
      && r.value < |catalog|
      && !catalog[r.value].posted
      && forall j :: 0 <= j < r.value ==> catalog[j].posted
  {
    if |catalog| == 0 then None
    else if !catalog[0].posted then Some(0)
    else match FirstUnposted(catalog[1..])
      case None => None
      case Some(i) => Some(i + 1)
  }

  /** Index of the first row with identifier `id` (`.loc[...].iloc[0]`), or None when there is none. */
  function FindById(catalog: seq<Puzzle>, id: PuzzleId): (r: Option<nat>)
    ensures r.None? <==> !Known(catalog, id)
    ensures r.Some? ==>
      && r.value < |catalog|
      && catalog[r.value].id == id
      && forall j :: 0 <= j < r.value ==> catalog[j].id != id
  {
    if |catalog| == 0 then None
    else if catalog[0].id == id then Some(0)
    else match FindById(catalog[1..], id)
      case None =>
        assert forall i :: 1 <= i < |catalog| ==> catalog[i] == catalog[1..][i - 1];
        None
      case Some(i) => Some(i + 1)
  }

  /** Sets the posted flag of row `i` (`puzzles.at[name, "posted"] = True`). */
  function MarkPosted(catalog: seq<Puzzle>, i: nat): (r: seq<Puzzle>)
    requires i < |catalog|
    ensures |r| == |catalog|
    ensures r[i].posted && r[i].(posted := false) == catalog[i].(posted := false)
    ensures forall j :: 0 <= j < |r| && j != i ==> r[j] == catalog[j]
  {
    catalog[i := catalog[i].(posted := true)]
  }

  /** Number of rows not yet posted. */
  function CountUnposted(catalog: seq<Puzzle>): nat {
    if |catalog| == 0 then 0 else (if catalog[0].posted then 0 else 1) + CountUnposted(catalog[1..])
  }

  /** Posting a row that was unposted removes exactly one row from the unposted count. */
  lemma {:induction false} MarkPostedCount(catalog: seq<Puzzle>, i: nat)
    requires i < |catalog| && !catalog[i].posted
    ensures CountUnposted(MarkPosted(catalog, i)) == CountUnposted(catalog) - 1
    decreases i
  {
    var r := MarkPosted(catalog, i);
    if i > 0 {
      assert r[1..] == MarkPosted(catalog[1..], i - 1);
      MarkPostedCount(catalog[1..], i - 1);
    } else {
      assert r[1..] == catalog[1..];
    }
  }

  /** There is an unposted row exactly when the unposted count is positive. */
  lemma {:induction false} CountUnpostedPositive(catalog: seq<Puzzle>)
    ensures CountUnposted(catalog) > 0 <==> FirstUnposted(catalog).Some?
  {
    if |catalog| > 0 {
      CountUnpostedPositive(catalog[1..]);
    }
  }

  /** Posting a row changes no identifier, so every known identifier stays known. */
  lemma MarkPostedKeepsIds(catalog: seq<Puzzle>, i: nat, id: PuzzleId)
    requires i < |catalog|
    ensures Known(MarkPosted(catalog, i), id) <==> Known(catalog, id)
  {
  }
}

=== FILE: markdown_v2.dfy ===
/**
 * Escaping for Telegram's MarkdownV2 formatting: every reserved character is
 * written with a backslash in front of it, everything else is copied.
 */
module MarkdownV2 {

  /** The reserved characters, in the order the bot lists them. The backslash is not among them. */
  const ReservedChars: string := "_*[]()~`>#+-=|{}.!"

  /** Membership in the reserved set, written out one character at a time. */
  predicate IsReserved(c: char) {
    || c == '_' || c == '*' || c == '[' || c == ']' || c == '(' || c == ')'
    || c == '~' || c == '`' || c == '>' || c == '#' || c == '+' || c == '-'
    || c == '=' || c == '|' || c == '{' || c == '}' || c == '.' || c == '!'
  }

  /** The written-out test agrees with the bot's list of reserved characters. */
  lemma IsReservedMatchesList(c: char)
    ensures IsReserved(c) <==> c in ReservedChars
  {
  }

  /** Text with no reserved character in it. */
  predicate Plain(t: string) {
    forall i :: 0 <= i < |t| ==> !IsReserved(t[i])
  }

  /** Text without reserved characters is left as it is. */
  lemma {:induction false} EscapePlain(t: string)
    requires Plain(t)
    ensures Escape(t) == t
  {
    if |t| > 0 {
      EscapePlain(t[1..]);
    }
  }

  /** Number of reserved characters in `t`. */
  function CountReserved(t: string): nat {
    if |t| == 0 then 0 else (if IsReserved(t[0]) then 1 else 0) + CountReserved(t[1..])
  }

  /** The text one input character becomes. */
  function EscapeChar(c: char): string {
    if IsReserved(c) then ['\\', c] else [c]
  }

  /** `escape_md_v2`: each character of `t` in turn, reserved ones prefixed by a backslash. */
  function Escape(t: string): (r: string)
    ensures |r| == |t| + CountReserved(t)
    ensures |t| > 0 ==> !IsReserved(r[0])
  {
    if |t| == 0 then "" else EscapeChar(t[0]) + Escape(t[1..])
  }

  /** Escaping works character by character, so it distributes over concatenation. */
  lemma {:induction false} EscapeAppend(a: string, b: string)
    ensures Escape(a + b) == Escape(a) + Escape(b)
  {
    if |a| > 0 {
      assert (a + b)[1..] == a[1..] + b;
      EscapeAppend(a[1..], b);
    } else {
      assert a + b == b;
    }
  }

  /** Escaping a text that starts with `d` escapes `d` and then the rest. */
  lemma EscapeCons(d: char, c: string)
    ensures Escape([d] + c) == EscapeChar(d) + Escape(c)
  {
    assert ([d] + c)[0] == d;
    assert ([d] + c)[1..] == c;
  }

  /** One reserved character between two plain pieces gains a backslash; the pieces are copied. */
  lemma EscapeAroundReserved(a: string, d: char, c: string)
    requires Plain(a) && IsReserved(d) && Plain(c)
    ensures Escape(a + [d] + c) == a + ['\\', d] + c
  {
    EscapePlain(a);
    EscapePlain(c);
    EscapeCons(d, c);
    assert Escape([d] + c) == ['\\', d] + c;
    EscapeAppend(a, [d] + c);
    assert a + [d] + c == a + ([d] + c);
    assert a + (['\\', d] + c) == a + ['\\', d] + c;
  }

  /** Drops the backslash in front of each escaped reserved character, scanning left to right. */
  function Unescape(s: string): (t: string)
    ensures |t| <= |s|
    decreases |s|
  {
    if |s| == 0 then ""
    else if s[0] == '\\' && |s| >= 2 && IsReserved(s[1]) then [s[1]] + Unescape(s[2..])
    else [s[0]] + Unescape(s[1..])
  }

  /** Removing the inserted backslashes gives back the input, whatever it contains (backslashes included). */
  lemma {:induction false} UnescapeEscape(t: string)
    ensures Unescape(Escape(t)) == t
  {
    if |t| > 0 {
      var rest := Escape(t[1..]);
      UnescapeEscape(t[1..]);
      if IsReserved(t[0]) {
        assert Escape(t) == ['\\', t[0]] + rest;
        assert (['\\', t[0]] + rest)[2..] == rest;
      } else {
        assert Escape(t) == [t[0]] + rest;
        assert ([t[0]] + rest)[1..] == rest;
        if t[0] == '\\' && |rest| > 0 {
          assert !IsReserved(rest[0]);
        }
      }
    }
  }

  /** Where input position `i` lands in the output: every earlier reserved character added one backslash. */
  function Landing(t: string, i: nat): nat
    requires i <= |t|
  {
    i + CountReserved(t[..i])
  }

  /**
   * Input character `i` appears in the output at its landing position, and a
   * reserved one is preceded there by a backslash; landings are in input order
   * and the last one is the output length, so nothing else is written.
   */
  lemma {:induction false} EscapeAt(t: string, i: nat)
    requires i < |t|
    ensures Landing(t, i + 1) == Landing(t, i) + |EscapeChar(t[i])|
    ensures Landing(t, |t|) == |Escape(t)|
    ensures IsReserved(t[i]) ==>
      Landing(t, i) + 1 < |Escape(t)| && Escape(t)[Landing(t, i)] == '\\' && Escape(t)[Landing(t, i) + 1] == t[i]
    ensures !IsReserved(t[i]) ==>
      Landing(t, i) < |Escape(t)| && Escape(t)[Landing(t, i)] == t[i]
    decreases i
  {
    assert t[..|t|] == t;
    var head := EscapeChar(t[0]);
    var rest := Escape(t[1..]);
    assert Escape(t) == head + rest;
    CountPrefixStep(t, i);
    if i > 0 {
      EscapeAt(t[1..], i - 1);
      CountPrefixShift(t, i);
      CountPrefixShift(t, i + 1);
      assert Landing(t, i) == |head| + Landing(t[1..], i - 1);
    }
  }

  /** Counting over one more character of the prefix. */
  lemma {:induction false} CountPrefixStep(t: string, i: nat)
    requires i < |t|
    ensures CountReserved(t[..i + 1]) == CountReserved(t[..i]) + (if IsReserved(t[i]) then 1 else 0)
    decreases i
  {
    if i > 0 {
      assert t[..i + 1][1..] == t[1..][..i];
      assert t[..i][1..] == t[1..][..i - 1];
      CountPrefixStep(t[1..], i - 1);
    }
  }

  /** Counting a prefix of `t` splits off its first character. */
  lemma CountPrefixShift(t: string, i: nat)
    requires 0 < i <= |t|
    ensures CountReserved(t[..i]) == (if IsReserved(t[0]) then 1 else 0) + CountReserved(t[1..][..i - 1])
  {
    assert t[..i][1..] == t[1..][..i - 1];
  }

  /** No reserved character is left bare: each one in the output follows a backslash. */
  lemma {:induction false} EscapeLeavesNoBareReserved(t: string, j: nat)
    requires j < |Escape(t)|
    requires IsReserved(Escape(t)[j])
    ensures j > 0 && Escape(t)[j - 1] == '\\'
  {
    var head := EscapeChar(t[0]);
    var rest := Escape(t[1..]);
    assert Escape(t) == head + rest;
    if j >= |head| {
      assert rest[j - |head|] == Escape(t)[j];
      EscapeLeavesNoBareReserved(t[1..], j - |head|);
      assert Escape(t)[j - 1] == rest[j - |head| - 1];
    }
  }
}

=== FILE: registry.dfy ===
/** The per-chat delivery history `chat_puzzles`: chat id to the puzzle ids sent there, oldest first. */
module Registry {
  import opened Wrappers
  import opened Catalog

  /** A Telegram chat id. */
  type ChatId = int

  type Registry = map<ChatId, seq<PuzzleId>>

  /** The chat's history; a chat without an entry has the empty one. */
  function History(reg: Registry, chat: ChatId): seq<PuzzleId> {
    if chat in reg then reg[chat] else []
  }

  /** Appends `id` to the chat's history, creating the entry first when the chat has none. */
  function RecordDelivery(reg: Registry, chat: ChatId, id: PuzzleId): (r: Registry)
    ensures r.Keys == reg.Keys + {chat}
    ensures History(r, chat) == History(reg, chat) + [id]
    ensures forall c :: c in reg && c != chat ==> r[c] == reg[c]
  {
    var past := if chat in reg then reg[chat] else [];
    reg[chat := past + [id]]
  }

  /** The last puzzle id sent to the chat (`chat_puzzles[chat_id][-1]`), or None without history. */
  function LastDelivered(reg: Registry, chat: ChatId): (r: Option<PuzzleId>)
    ensures r.None? <==> chat !in reg || |reg[chat]| == 0
    ensures r.Some? ==> |History(reg, chat)| > 0 && r.value == History(reg, chat)[|History(reg, chat)| - 1]
  {
    if chat in reg && |reg[chat]| > 0 then Some(reg[chat][|reg[chat]| - 1]) else None
  }

  /** After recording `id` for a chat, that chat's last delivery is `id`; every other chat's is unchanged. */
  lemma LastAfterRecord(reg: Registry, chat: ChatId, id: PuzzleId, other: ChatId)
    ensures LastDelivered(RecordDelivery(reg, chat, id), chat) == Some(id)
    ensures other != chat ==> LastDelivered(RecordDelivery(reg, chat, id), other) == LastDelivered(reg, other)
  {
  }
}

=== FILE: text.dfy ===
/**
 * The few pieces of Python string behaviour the bot relies on:
 * substring membership (`sub in s`, and `str.contains` with a pattern free of
 * regular-expression metacharacters), `str.split()` without a separator, and
 * `sep.join(words)`.
 */
module Text {

  /** The characters Python's `str.isspace` accepts; `str.split()` breaks on runs of them. */
  predicate IsSpace(c: char) {
    || c == ' ' || c == '\t' || c == '\n' || c == '\r'
    || c == '\U{000B}' || c == '\U{000C}'
    || ('\U{001C}' <= c <= '\U{001F}')
    || c == '\U{0085}' || c == '\U{00A0}' || c == '\U{1680}'
    || ('\U{2000}' <= c <= '\U{200A}')
    || c == '\U{2028}' || c == '\U{2029}' || c == '\U{202F}' || c == '\U{205F}' || c == '\U{3000}'
  }

  /** A string that `str.split()` would return as one word. */
  predicate IsWord(w: string) {
    |w| > 0 && forall j :: 0 <= j < |w| ==> !IsSpace(w[j])
  }

  predicate IsPrefix(p: string, s: string) {
    |p| <= |s| && s[..|p|] == p
  }

  /** The window of `s` starting at `i` spells `sub`. */
  predicate WindowAt(s: string, sub: string, i: int) {
    0 <= i <= |s| - |sub| && s[i..i + |sub|] == sub
  }

  predicate IsSuffix(q: string, s: string) {
    |q| <= |s| && s[|s| - |q|..] == q
  }

  /** A string shorter than `sub` cannot contain it. */
  lemma {:induction false} ShorterNotContains(s: string, sub: string)
    requires |s| < |sub|
    ensures !Contains(s, sub)
    decreases |s|
  {
    if |s| > 0 {
      ShorterNotContains(s[1..], sub);
    }
  }

  /** A string contains another of the same length only when the two are equal. */
  lemma SameLengthContains(s: string, sub: string)
    requires |s| == |sub|
    ensures Contains(s, sub) <==> s == sub
  {
    assert s[..|sub|] == s;
    if |s| > 0 {
      ShorterNotContains(s[1..], sub);
    }
  }

  /** The reference meaning of `sub in s`: some window of `s` spells `sub`. */
  ghost predicate HasWindow(s: string, sub: string) {
    exists i :: WindowAt(s, sub, i)
  }

  /** `sub in s`, scanning the start positions of `s` from the left. */
  predicate Contains(s: string, sub: string)
    decreases |s|
  {
    IsPrefix(sub, s) || (|s| > 0 && Contains(s[1..], sub))
  }

  /** Dropping the first character moves every window one place to the left. */
  lemma WindowShift(s: string, sub: string, i: int)
    requires |s| > 0 && 0 <= i
    ensures WindowAt(s[1..], sub, i) <==> WindowAt(s, sub, i + 1)
  {
    if i + |sub| <= |s| - 1 {
      assert s[1..][i..i + |sub|] == s[i + 1..i + 1 + |sub|];
    }
  }

  /** The scan agrees with the window definition, in both directions. */
  lemma {:induction false} ContainsIffWindow(s: string, sub: string)
    ensures Contains(s, sub) <==> HasWindow(s, sub)
    decreases |s|
  {
    if IsPrefix(sub, s) {
      assert WindowAt(s, sub, 0);
    } else if |s| == 0 {
    } else {
      ContainsIffWindow(s[1..], sub);
      if HasWindow(s[1..], sub) {
        var i :| WindowAt(s[1..], sub, i);
        WindowShift(s, sub, i);
      }
      if HasWindow(s, sub) {
        var i :| WindowAt(s, sub, i);
        assert i != 0;
        WindowShift(s, sub, i - 1);
      }
    }
  }

  /** Length of the longest prefix of `s` free of whitespace. */
  function WordLength(s: string): (n: nat)
    ensures n <= |s|
    ensures forall j :: 0 <= j < n ==> !IsSpace(s[j])
    ensures n < |s| ==> IsSpace(s[n])
  {
    if |s| == 0 || IsSpace(s[0]) then 0 else 1 + WordLength(s[1..])
  }

  /** Python's `s.split()`: the maximal whitespace-free runs of `s`, in order. */
  function Fields(s: string): (r: seq<string>)
    ensures forall k :: 0 <= k < |r| ==> IsWord(r[k])
    decreases |s|
  {
    if |s| == 0 then []
    else if IsSpace(s[0]) then Fields(s[1..])
    else
      var n := WordLength(s);
      [s[..n]] + Fields(s[n..])
  }

  /** A whitespace character ends the word in front of it, whatever follows. */
  lemma {:induction false} WordLengthBeforeSpace(a: string, c: char, b: string)
    requires IsSpace(c)
    ensures WordLength(a + [c] + b) == WordLength(a)
    decreases |a|
  {
    var s := a + [c] + b;
    if |a| == 0 {
      assert s[0] == c;
    } else {
      assert s[0] == a[0];
      if !IsSpace(a[0]) {
        assert s[1..] == a[1..] + [c] + b;
        WordLengthBeforeSpace(a[1..], c, b);
      }
    }
  }

  /**
   * Splitting at any whitespace character splits the two sides apart: the
   * words of `a + [c] + b` are the words of `a` followed by the words of `b`.
   * With `Fields("") == []` and `FieldsOfWord` this pins the split down fully.
   */
  lemma {:induction false} FieldsAtSpace(a: string, c: char, b: string)
    requires IsSpace(c)
    ensures Fields(a + [c] + b) == Fields(a) + Fields(b)
    decreases |a|
  {
    var s := a + [c] + b;
    if |a| == 0 {
      assert s[0] == c;
      assert s[1..] == b;
    } else if IsSpace(a[0]) {
      assert s[0] == a[0];
      assert s[1..] == a[1..] + [c] + b;
      FieldsAtSpace(a[1..], c, b);
    } else {
      assert s[0] == a[0];
      var m := WordLength(a);
      WordLengthBeforeSpace(a, c, b);
      assert WordLength(s) == m;
      assert s[..m] == a[..m];
      assert s[m..] == a[m..] + [c] + b;
      FieldsAtSpace(a[m..], c, b);
    }
  }

  /** Python's `sep.join(ws)`. */
  function Join(ws: seq<string>, sep: string): string {
    if |ws| == 0 then ""
    else if |ws| == 1 then ws[0]
    else ws[0] + sep + Join(ws[1..], sep)
  }

  /** A single word splits to itself. */
  lemma FieldsOfWord(w: string)
    requires IsWord(w)
    ensures Fields(w) == [w]
  {
    var n := WordLength(w);
    assert n == |w|;
    assert w[..n] == w;
    assert w[n..] == [];
  }

  /** Splitting undoes joining with one space, for words without whitespace. */
  lemma {:induction false} FieldsOfJoin(ws: seq<string>)
    requires forall k :: 0 <= k < |ws| ==> IsWord(ws[k])
    ensures Fields(Join(ws, " ")) == ws
    decreases |ws|
  {
    if |ws| == 0 {
    } else if |ws| == 1 {
      FieldsOfWord(ws[0]);
    } else {
      var w, rest := ws[0], Join(ws[1..], " ");
      var s := w + " " + rest;
      assert Join(ws, " ") == s;
      assert s[|w|] == ' ';
      var n := WordLength(s);
      assert forall j :: 0 <= j < |w| ==> s[j] == w[j];
      assert n == |w|;
      assert s[..n] == w;
      assert s[n..][1..] == rest;
      assert Fields(s[n..]) == Fields(rest);
      FieldsOfJoin(ws[1..]);
      assert Fields(s) == [w] + ws[1..];
    }
  }
}

=== FILE: wrappers.dfy ===
/** Option and Result values for the bot's "no value" and error paths. */
module Wrappers {

  /** A value that may be missing, as Python's `None`. */
  datatype Option<+T> = None | Some(value: T)

  /** A computation that either produces a value or fails with an error. */
  datatype Result<+T, +E> = Ok(value: T) | Err(error: E) {

    predicate IsFailure() {
      Err?
    }

    function PropagateFailure<U>(): Result<U, E>
      requires Err?
    {
      Err(error)
    }

    function Extract(): T
      requires Ok?
    {
      value
    }
  }
}
